=== FILE: README.md ===
# Reflector dependency resolvers, modelled in Dafny

The repository ships two dependency-injection resolvers. Both take a target and produce an
instance or a call result. `Reflect` reads the reflected constructor of a class, or the
reflected signature of a closure, and fills its parameters by position. `Container` calls a
callable target with the container alone, without reading its signature, and builds anything
else from its reflected constructor through `DI`.

- `Reflect` (`src/Reflect.php`) keeps three registries: aliases, bindings and singleton
  instances. `resolve` returns a stored singleton for the requested key. Otherwise it follows one
  alias hop, then one binding (a closure binding is resolved), and builds the result. A parameter
  takes the explicit argument at its position. Failing that, a class-typed parameter is resolved
  recursively with no arguments, and an untyped one takes its default or fails.
- `Container` (`src/Container.php`) keeps bindings and singleton instances. `make` returns a
  stored singleton, otherwise rewrites a non-callable target through its binding once. A callable
  result is called with the container itself. Anything else goes to `DI::resolve`.
- `DI` (`src/DI.php`) is the stateless constructor builder behind `make`. At line 44 it passes the
  constructor's parameter list as the explicit arguments, so every position is filled by its own
  reflected parameter object. It never resolves anything recursively and never reads a default.
  The model keeps this behaviour as written.

PHP reflection is replaced by an explicit `World`: a table from class names to "instantiable"
and an optional constructor parameter list. A parameter is `Param(name, position, classType,
default)`. A closure value carries its own parameter list. The world also carries a call table:
`call(id, a)` is whatever closure `id` returns on arguments `a`, so a factory closure may return
a class name or an object that resolution then builds or reflects on. Building a class yields `Instance(cls, args)`, or
`Bare(cls)` when the class has no constructor. Failures are a `Result` carrying `NotInstantiable`
(the class name), `UnknownParameter` (Reflect, whose message names nothing),
`UnresolvableParameter` (DI, with name and position) or `UnknownClass` (reflection found no
class). Neither source file detects dependency cycles. `Reflect::resolve` recurses into every
class-typed parameter, so on a cyclic graph it never finishes (`Reflect.CyclicGraphExhausts`).
`DI::resolve` always finishes: its line 44 fills every position from the explicit arguments, so
it never recurses (`DI.CyclicGraphFinishes`). The recursive functions take a `fuel` bound
instead of running unbounded, and running out gives `Exhausted`.
`Registry.ResolveFuel` proves that fuel is only a bound: any result that did not run out of fuel
stays the same with more fuel.

Layout:
- `values.dfy` holds the shared vocabulary.
- `reflect.dfy` holds module `Reflect`. The datatype `Registry` carries the pure lookups
  (`GetAlias`, `GetSingleton`, the `*Exists` predicates) and the resolution cluster (`Resolve`,
  `GetBinding`, `ResolveFunction`, `ResolveClass`, `Dependencies`/`Dependency`). Class `Reflect`
  holds the three maps that `Bind`, `Alias` and `Singleton` update in place, and
  `GetDependencies`, the appending loop proved equal to `Registry.Dependencies`.
- `di.dfy` holds module `DI`. Its positional rule is the same as `Reflect`'s, so its
  dependency functions and lemmas mirror those of `Registry`. They are stated twice because
  each recurses into its own resolver.
- `container.dfy` holds module `Container`. The datatype `Store` carries `Instance`, `Binding`
  and `Make`. Class `Container` holds the maps that `Bind` and `Singleton` update.

Resolution reads the registries and never writes them. The functions of `Registry` and `Store`
work on a snapshot of a `Reflect` or `Container` object (`State()`), so every resolution leaves
all maps unchanged by construction.

## Model

| member | source | states |
|---|---|---|
| `Reflect.Registry.GetAlias` | src/Reflect.php:137-144 | the result is the input or the stored alias of the input; a non-callable key with an alias gives that alias, after exactly one hop; a callable key or one without an alias comes back unchanged |
| `Reflect.Registry.GetSingleton` | src/Reflect.php:179-186 | the stored instance when one exists, otherwise the input itself |
| `Reflect.Registry.GetBindingCases` | src/Reflect.php:78-91 | a callable or unbound key comes back unchanged; a stored non-closure binding is returned verbatim; a stored closure is resolved with no explicit arguments |
| `Reflect.Registry.StoredSingletonIsReturned` | src/Reflect.php:199-203 | once a value is stored for a non-callable key, resolving that key with any arguments returns the value |
| `Reflect.Registry.AliasSkipsDestinationSingleton` | src/Reflect.php:199-216 | for every registry: an aliased key without a singleton of its own, whose destination is non-callable and unbound, resolves as the destination's class built with the same arguments; the destination's singleton and alias play no part |
| `Reflect.Registry.ClosureBindingResolvesItsResult` | src/Reflect.php:205-216 | a key bound to a closure resolves by calling the closure with no explicit arguments and then treating its result as the target: called with the arguments if callable, otherwise reflected and built with them |
| `Reflect.Registry.BoundKeySkipsConcreteSingleton` | src/Reflect.php:201-216 | for every registry: a key without a singleton or alias, bound to a non-callable value, resolves as that value reflected and built with the same arguments; the bound value's own singleton, alias and binding are never consulted |
| `Reflect.Registry.BoundKeyResolvesAsConcrete` | src/Reflect.php:205-216 | a key bound to a class name with no singleton, alias or binding of its own resolves exactly as that name does |
| `Reflect.Registry.ResolveClassCases` | src/Reflect.php:250-272 | not instantiable fails naming the class; no constructor gives a bare instance and ignores the arguments; otherwise the instance gets one value per constructor parameter in order, or the whole call fails with the first parameter's failure |
| `Reflect.Registry.ResolveFunctionCases` | src/Reflect.php:233-239 | a closure is called with one value per declared parameter in order and its result is what the call table gives for those values, or it fails with the first failing parameter's error |
| `Reflect.Registry.DependencyCases` | src/Reflect.php:287-297 | parameter i takes the explicit argument at position i verbatim; otherwise a class-typed parameter gets that class resolved with no arguments, or fails with `UnknownClass` when the class does not exist; otherwise its default, or the unknown-parameter failure |
| `Reflect.Registry.Dependencies` | src/Reflect.php:283-301 | a successful dependency list has exactly one entry per parameter considered |
| `Reflect.Registry.DependenciesEntries` | src/Reflect.php:283-301 | the list exists iff every parameter gets a value; entry i is parameter i's value, and the explicit argument at i verbatim when there is one; otherwise the error is the first failing parameter's |
| `Reflect.Registry.DependenciesFailurePersists` | src/Reflect.php:287-298 | a failure at some parameter aborts the whole list: every longer prefix fails with the same error and no partial list is produced |
| `Reflect.Registry.ResolveFuel` | src/Reflect.php:197-222 | a resolution that did not run out of fuel gives the same result with more fuel |
| `Reflect.Registry.GetBindingFuel` | src/Reflect.php:78-91 | the same fuel independence for the binding lookup, which may resolve a closure |
| `Reflect.Registry.ResolveFunctionFuel` | src/Reflect.php:233-239 | the same fuel independence for calling a closure |
| `Reflect.Registry.ResolveClassFuel` | src/Reflect.php:250-272 | the same fuel independence for instantiating a class |
| `Reflect.Registry.DependenciesFuel` | src/Reflect.php:283-301 | the same fuel independence for the dependency list |
| `Reflect.Registry.DependencyFuel` | src/Reflect.php:288-297 | the same fuel independence for one parameter |
| `Reflect.ResolveNonClass` | src/Reflect.php:311-318 | succeeds exactly when the parameter has a default, returning it; otherwise fails with the unnamed unknown-parameter error |
| `Reflect.AliasDestinationSingletonIsBypassed` | src/Reflect.php:199-209 | with alias Api to Impl and a singleton stored for Impl, resolving Impl gives the singleton but resolving Api builds a new bare Impl |
| `Reflect.ChainedAliasTakesOneHop` | src/Reflect.php:205-206 | with aliases Api to Mid and Mid to Impl, resolving Api builds Mid, not Impl |
| `Reflect.NestedConstruction` | src/Reflect.php:293-297 | a class X whose constructor takes a Y gets a freshly constructed Y, with no explicit arguments at any level |
| `Reflect.FactoryClosureBuildsReturnedClass` | src/Reflect.php:84-88 | whatever else the call table holds, a key bound to a closure that returns the name Impl resolves to a new Impl |
| `Reflect.CyclicGraphExhausts` | src/Reflect.php:293-297 | with classes A(b: B) and B(a: A), resolving A or B runs out of any amount of fuel: the recursion never finishes |
| `Reflect.Registry.AliasThenBinding` | src/Reflect.php:205-216 | for every registry: an aliased key without a singleton of its own follows its alias once, then the destination's binding; a non-callable bound value is reflected and built with the same arguments, and no singleton along the way is consulted |
| `Reflect.Reflect.constructor` | src/Reflect.php:17-32 | a new object starts with three empty registries |
| `Reflect.Reflect.Bind` | src/Reflect.php:65-68 | overwrites exactly the one binding entry; aliases and instances are unchanged |
| `Reflect.Reflect.Alias` | src/Reflect.php:113-116 | overwrites exactly the one alias entry; bindings and instances are unchanged |
| `Reflect.Reflect.Singleton` | src/Reflect.php:155-158 | on success stores the resolution of the concrete value with no arguments under the key, overwriting; on failure reports the error and leaves instances unchanged; aliases and bindings never change |
| `Reflect.Reflect.GetDependencies` | src/Reflect.php:283-301 | the appending loop returns exactly the dependency list `Registry.Dependencies` specifies, including its first failure |
| `DI.DependencyCases` | src/DI.php:63-74 | parameter i takes the explicit argument at position i verbatim; otherwise a class-typed parameter gets that class resolved with no arguments, or fails with `UnknownClass` when the class does not exist; otherwise its default, or a failure carrying the parameter's name and position |
| `DI.Dependencies` | src/DI.php:59-77 | a successful dependency list has exactly one entry per parameter considered |
| `DI.ResolveNonClass` | src/DI.php:87-99 | succeeds exactly when the parameter has a default, returning it; otherwise fails with an error carrying the parameter's name and position |
| `DI.DependenciesFailurePersists` | src/DI.php:63-74 | a failure at some parameter aborts the whole list with the same error |
| `DI.DependenciesEntries` | src/DI.php:59-77 | the list exists iff every parameter gets a value; entry i is parameter i's value, and the explicit argument at i verbatim when there is one; otherwise the error is the first failing parameter's |
| `DI.ParametersFillEveryPosition` | src/DI.php:43-44 | with the parameter list passed as its own explicit arguments, the dependency list is the parameter objects themselves, position by position |
| `DI.ResolveOutcome` | src/DI.php:20-48 | for any arguments and any positive fuel: an unknown class fails naming the target; not instantiable fails naming the class; no constructor gives a bare instance; otherwise the instance receives its own parameter objects, so nothing is resolved recursively and no default is read |
| `DI.CyclicGraphFinishes` | src/DI.php:43-44 | with the same cyclic classes, `DI::resolve` of A finishes after one step without recursing; the model builds A on its own parameter object, where PHP's type check on `B $b` raises a `TypeError` instead |
| `DI.GetDependencies` | src/DI.php:59-77 | the appending loop returns exactly the dependency list `DI.Dependencies` specifies, including its first failure |
| `Container.Store.Instance` | src/Container.php:116-123 | the stored instance when one exists, otherwise the input itself |
| `Container.Store.MakeReturnsSingleton` | src/Container.php:148-151 | a non-callable target with a stored singleton makes that value, whatever the bindings are |
| `Container.Store.MakeCallsCallable` | src/Container.php:154-162 | a callable target is called with the container as its only argument and its return value is the result; the parameters given to make play no part |
| `Container.Store.BindingFromMakeIsVerbatim` | src/Container.php:68-81 | for a non-callable key the binding lookup returns the stored binding unresolved, or the key itself when unbound |
| `Container.Store.BindingOfCallableKey` | src/Container.php:76-78 | a callable key with a binding makes the stored binding with the container as argument |
| `Container.Store.MakeRewritesOnce` | src/Container.php:154-165 | without a singleton, a non-callable target is rewritten by its binding once; the result is called if callable, else built by `DI.Resolve`; its own singleton and binding are not consulted |
| `Container.Store.MakeNullFails` | src/Container.php:104-106 | `singleton` without a concrete value makes `null`, which fails with the unknown-class error when nothing is stored or bound under `null` |
| `Container.BoundTargetSingletonIsBypassed` | src/Container.php:146-165 | with a binding Api to Impl and a singleton for Impl, making Impl gives the singleton but making Api builds a new bare Impl |
| `Container.Container.constructor` | src/Container.php:17-24 | a new container starts with empty bindings and instances |
| `Container.Container.Bind` | src/Container.php:55-58 | overwrites exactly the one binding entry; instances are unchanged |
| `Container.Container.Singleton` | src/Container.php:104-107 | on success stores what making the concrete value with the container as parameter returns, overwriting; on failure reports the error and leaves instances unchanged; bindings never change |

Where the source operations live without a row of their own: `resolve`, `getBinding`,
`resolveFunction`, `resolveClass` and one iteration of `getDependencies` in `Reflect.php` are
`Reflect.Registry.Resolve`, `GetBinding`, `ResolveFunction`, `ResolveClass` and `Dependency`.
`bindingExists`, `aliasExists` and `singletonExists` are the predicates of the same name.
`DI::resolve` is `DI.Resolve` and one iteration of its loop is `DI.Dependency`. `make`,
`binding`, `bindingExists` and `singletonExists` in `Container.php` are `Container.Store.Make`,
`Binding` and the two predicates. The rows above state their behaviour.

## Left out

- The lazy global objects (`getReflectorInstance`, `getContainerInstance`) are not modelled. The
  model passes an explicit object or registry snapshot, and `ContainerRef` stands for the
  container handed to callables.
- `src/Support/helpers.php` is not part of this model. It only returns the container or forwards
  to `make`.
- PHP reflection is not modelled; the `World` class table stands in for it. `newInstanceArgs` and
  `newInstanceWithoutConstructor` become the free values `Instance` and `Bare`, and `invokeArgs`
  becomes the world's call table. Constructor bodies and the type checks PHP applies to
  constructor arguments do not run.
- DI.ResolveOutcome: because those type checks do not run, a constructor with a class-typed or
  scalar-typed parameter is built on its own parameter objects in the model. PHP's
  `newInstanceArgs` (src/DI.php:47) raises a `TypeError` there, since every argument is a
  `ReflectionParameter`. Only constructors whose parameters are untyped, or accept a
  `ReflectionParameter`, are built in PHP.
- User closures are not executed. A call result is read from the world's call table, which is
  fixed in advance, so a closure that itself calls the container, or changes its registries, is
  not followed. A closure call never fails in the model. In PHP the closure body may throw, and
  calling a closure that has two or more required parameters with the container alone
  (src/Container.php:162) raises an `ArgumentCountError`.
- `is_callable` is reduced to "is a closure value". Strings naming global functions, array
  callables and `__invoke` objects are not modelled.
- Reflecting on a value that is not a class name, `Instance` or `Bare` (a scalar, `null`, a
  parameter object, the container) is modelled as the `UnknownClass` failure. PHP would reflect
  on the runtime class of an object.
- A class-typed parameter whose class does not exist makes PHP's `getClass` throw. The model
  returns the `UnknownClass` error naming the class at that point, before any registry is read.
- Container.Container.Singleton: Dafny has no default arguments, so `singleton($abstract)` is
  the call with `concrete` set to `Null`. PHP turns a `null` array key into the empty string;
  the model keeps `Null` as a key of its own.
- PHP array-key rules are not modelled: maps are keyed by any value. PHP raises a type error for
  object or closure keys and normalises numeric strings.
- Exception message text is not modelled beyond the class name or the parameter's name and
  position that the errors carry.
- Object identity is not modelled beyond "the stored value is returned".
- Recursion on a cyclic dependency graph, which exhausts the PHP stack, is cut off by `fuel`. A
  result is only meaningful when it is not `Exhausted`.
- `make` at src/Container.php:165 wraps its parameters into a single argument for
  `DI::resolve`. The model passes the parameter list through unchanged, since `DI.Resolve` never
  reads it.

=== FILE: container.dfy ===
/** The application container: bindings and singleton instances, and a `Make` that returns a
    stored singleton, rewrites the target through at most one binding, calls a callable with
    the container itself, and hands anything else to the stateless `DI` resolver. */
module Container {
  import opened Values
  import DI

  /** The two registries of a `Container` object, read by every lookup and by `Make`. */
  datatype Store = Store(bindings: map<Value, Value>, instances: map<Value, Value>)
  {
    predicate BindingExists(key: Value) {
      key in bindings
    }

    predicate SingletonExists(key: Value) {
      key in instances
    }

    /** The stored instance of `key`, or the input itself when none is stored. */
    function Instance(key: Value): (r: Value)
      ensures SingletonExists(key) ==> r == instances[key]
      ensures !SingletonExists(key) ==> r == key
    {
      if !SingletonExists(key) then key else instances[key]
    }

    /** The binding of `key`: the input itself when unbound; when `key` is callable, the stored
        binding made with the container as its argument; otherwise the stored binding verbatim. */
    function Binding(w: World, key: Value, fuel: nat): Result<Value>
      decreases if IsCallable(key) then 2 else 0
    {
      if !BindingExists(key) then Success(key)
      else if IsCallable(key) then Make(w, bindings[key], [ContainerRef], fuel)
      else Success(bindings[key])
    }

    /** Make `target`. `parameters` reach `DI.Resolve`, which never reads them. */
    function Make(w: World, target: Value, parameters: seq<Value>, fuel: nat): Result<Value>
      decreases 1
    {
      if !IsCallable(target) && SingletonExists(target) then Success(Instance(target))
      else
        var bound := if !IsCallable(target) then Binding(w, target, fuel) else Success(target);
        match bound
        case Failure(e) => Failure(e)
        case Success(t) =>
          if IsCallable(t) then Success(w.call(t.id, [ContainerRef]))
          else DI.Resolve(w, t, parameters, fuel)
    }

    /** A non-callable key with a stored singleton makes that value; no binding is consulted. */
    lemma MakeReturnsSingleton(w: World, target: Value, parameters: seq<Value>, fuel: nat)
      requires !IsCallable(target) && SingletonExists(target)
      ensures Make(w, target, parameters, fuel) == Success(instances[target])
      ensures forall b: map<Value, Value> :: this.(bindings := b).Make(w, target, parameters, fuel) == Success(instances[target])
    {
    }

    /** A callable target skips the binding lookup and is called with the container as its only
        argument; the parameters given to `Make` play no part. */
    lemma MakeCallsCallable(w: World, target: Value, parameters: seq<Value>, fuel: nat)
      requires IsCallable(target)
      ensures Make(w, target, parameters, fuel) == Success(w.call(target.id, [ContainerRef]))
    {
    }

    /** Making `null`, as `singleton` does when no concrete value is given, fails when nothing is
        stored or bound under `null`: reflection finds no class for it. */
    lemma MakeNullFails(w: World, fuel: nat)
      requires !SingletonExists(Null) && !BindingExists(Null) && fuel > 0
      ensures Make(w, Null, [ContainerRef], fuel) == Failure(UnknownClass(Null))
    {
    }

    /** Reached from `Make`, with a non-callable key, the binding lookup returns the stored
        binding verbatim, even when it is a callable, and the key itself when unbound. */
    lemma BindingFromMakeIsVerbatim(w: World, key: Value, fuel: nat)
      requires !IsCallable(key)
      ensures Binding(w, key, fuel) == Success(if BindingExists(key) then bindings[key] else key)
    {
    }

    /** A callable key with a binding makes the stored binding with the container as argument. */
    lemma BindingOfCallableKey(w: World, key: Value, fuel: nat)
      requires IsCallable(key) && BindingExists(key)
      ensures Binding(w, key, fuel) == Make(w, bindings[key], [ContainerRef], fuel)
    {
    }

    /** Without a singleton, a non-callable target is rewritten by its binding once; the rewritten
        target is called if callable and otherwise built by `DI.Resolve`, and its own singleton
        and binding are never looked at. */
    lemma MakeRewritesOnce(w: World, target: Value, parameters: seq<Value>, fuel: nat)
      requires !IsCallable(target) && !SingletonExists(target)
      ensures var t := if BindingExists(target) then bindings[target] else target;
              Make(w, target, parameters, fuel) ==
              if IsCallable(t) then Success(w.call(t.id, [ContainerRef])) else DI.Resolve(w, t, parameters, fuel)
    {
    }
  }

  /** A singleton stored under a binding's destination is not what making the bound key returns. */
  lemma BoundTargetSingletonIsBypassed(call: (nat, seq<Value>) -> Value)
    ensures var w := World(map["Impl" := ClassInfo(true, None)], call);
            var store := Store(map[Name("Api") := Name("Impl")], map[Name("Impl") := Scalar(1)]);
            store.Make(w, Name("Impl"), [], 1) == Success(Scalar(1)) &&
            store.Make(w, Name("Api"), [], 1) == Success(Bare("Impl"))
  {
  }

  /** A `Container` object: the registries it updates in place. */
  class Container {
    var bindings: map<Value, Value>
    var instances: map<Value, Value>

    constructor ()
      ensures bindings == map[] && instances == map[]
    {
      bindings := map[];
      instances := map[];
    }

    /** The registries as they stand now. */
    function State(): Store
      reads this
    {
      Store(bindings, instances)
    }

    method Bind(key: Value, concrete: Value)
      modifies this
      ensures bindings == old(bindings)[key := concrete]
      ensures instances == old(instances)
    {
      bindings := bindings[key := concrete];
    }

    /** Make `concrete` with the container as its parameter and store the result under `key`;
        `thrown` is the failure that PHP would raise, in which case nothing is stored. */
    method Singleton(w: World, key: Value, concrete: Value, fuel: nat) returns (thrown: Option<Error>)
      modifies this
      ensures bindings == old(bindings)
      ensures match old(State().Make(w, concrete, [ContainerRef], fuel))
              case Success(v) => thrown == None && instances == old(instances)[key := v]
              case Failure(e) => thrown == Some(e) && instances == old(instances)
    {
      var r := State().Make(w, concrete, [ContainerRef], fuel);
      match r {
        case Success(v) =>
          instances := instances[key := v];
          thrown := None;
        case Failure(e) =>
          thrown := Some(e);
      }
    }
  }
}

=== FILE: di.dfy ===
/** The stateless `DI` resolver used by the container: reflect on a class and build it from its
    constructor's parameters. Its `Resolve` hands the constructor's own parameter list to
    `Dependencies` as the explicit arguments, so every position is filled by the reflected
    parameter object at that position and nothing is resolved recursively. */
module DI {
  import opened Values

  /** Instantiate `target`. `args` is accepted and never read. Each call spends one unit of `fuel`. */
  function Resolve(w: World, target: Value, args: seq<Value>, fuel: nat): Result<Value>
    decreases fuel, 0, 0
  {
    if fuel == 0 then Failure(Exhausted)
    else
      match Reflected(w, target)
      case Failure(e) => Failure(e)
      case Success((name, info)) =>
        if !info.instantiable then Failure(NotInstantiable(name))
        else
          match info.ctor
          case None => Success(Bare(name))
          case Some(ps) =>
            match Dependencies(w, ps, ParamValues(ps), |ps|, fuel - 1)
            case Failure(e) => Failure(e)
            case Success(d) => Success(Instance(name, d))
  }

  /** The value for parameter `key`: the explicit argument at that position, else the
      resolution of its class type with no arguments, else its default. Reflecting on a type
      hint that names no known class fails before anything is resolved. */
  function Dependency(w: World, ps: seq<Param>, args: seq<Value>, key: nat, fuel: nat): Result<Value>
    requires key < |ps|
    decreases fuel, 1, 0
  {
    if key < |args| then Success(args[key])
    else
      match ps[key].classType
      case Some(c) => if c in w.classes then Resolve(w, Name(c), [], fuel) else Failure(UnknownClass(Name(c)))
      case None => ResolveNonClass(ps[key])
  }

  /** The dependency list of the first `n` parameters, failing at the first parameter that fails. */
  function Dependencies(w: World, ps: seq<Param>, args: seq<Value>, n: nat, fuel: nat): (r: Result<seq<Value>>)
    requires n <= |ps|
    ensures r.Success? ==> |r.value| == n
    decreases fuel, 2, n
  {
    if n == 0 then Success([])
    else
      match Dependencies(w, ps, args, n - 1, fuel)
      case Failure(e) => Failure(e)
      case Success(d) =>
        match Dependency(w, ps, args, n - 1, fuel)
        case Failure(e) => Failure(e)
        case Success(v) => Success(d + [v])
  }

  /** An untyped parameter with no explicit argument: its default, or a failure naming the
      parameter and its position. */
  function ResolveNonClass(p: Param): (r: Result<Value>)
    ensures r.Success? <==> p.default.Some?
    ensures r.Success? ==> r.value == p.default.value
    ensures r.Failure? ==> r.error == UnresolvableParameter(p.name, p.position)
  {
    match p.default
    case Some(v) => Success(v)
    case None => Failure(UnresolvableParameter(p.name, p.position))
  }

  /** The positional rule for one parameter: the explicit argument at its position wins;
      otherwise a class-typed parameter is resolved with no arguments, or fails when its class
      is unknown; otherwise its default
      is used, and without one the call fails naming the parameter and its position. */
  lemma DependencyCases(w: World, ps: seq<Param>, args: seq<Value>, key: nat, fuel: nat)
    requires key < |ps|
    ensures key < |args| ==> Dependency(w, ps, args, key, fuel) == Success(args[key])
    ensures key >= |args| && ps[key].classType.Some? && ps[key].classType.value in w.classes ==>
            Dependency(w, ps, args, key, fuel) == Resolve(w, Name(ps[key].classType.value), [], fuel)
    ensures key >= |args| && ps[key].classType.Some? && ps[key].classType.value !in w.classes ==>
            Dependency(w, ps, args, key, fuel) == Failure(UnknownClass(Name(ps[key].classType.value)))
    ensures key >= |args| && ps[key].classType.None? && ps[key].default.Some? ==>
            Dependency(w, ps, args, key, fuel) == Success(ps[key].default.value)
    ensures key >= |args| && ps[key].classType.None? && ps[key].default.None? ==>
            Dependency(w, ps, args, key, fuel) == Failure(UnresolvableParameter(ps[key].name, ps[key].position))
  {
  }

  /** Every one of the first `k` parameters gets a value. */
  predicate PrefixResolves(w: World, ps: seq<Param>, args: seq<Value>, k: nat, fuel: nat)
    requires k <= |ps|
  {
    forall i :: 0 <= i < k ==> Dependency(w, ps, args, i, fuel).Success?
  }

  /** Once a prefix of the parameters fails, every longer prefix fails with the same error. */
  lemma {:induction false} DependenciesFailurePersists(w: World, ps: seq<Param>, args: seq<Value>, n: nat, m: nat, fuel: nat)
    requires n <= m <= |ps|
    requires Dependencies(w, ps, args, n, fuel).Failure?
    ensures Dependencies(w, ps, args, m, fuel) == Dependencies(w, ps, args, n, fuel)
    decreases m
  {
    if n < m {
      DependenciesFailurePersists(w, ps, args, n, m - 1, fuel);
    }
  }

  /** The dependency list has one entry per parameter, entry `i` being parameter `i`'s own value
      (the explicit argument verbatim when there is one); it exists exactly when every entry
      succeeds, and otherwise the whole list fails with the error of the first failing entry. */
  lemma {:induction false} DependenciesEntries(w: World, ps: seq<Param>, args: seq<Value>, n: nat, fuel: nat)
    requires n <= |ps|
    ensures Dependencies(w, ps, args, n, fuel).Success? <==> PrefixResolves(w, ps, args, n, fuel)
    ensures Dependencies(w, ps, args, n, fuel).Success? ==>
            var d := Dependencies(w, ps, args, n, fuel).value;
            |d| == n &&
            (forall i :: 0 <= i < n ==> d[i] == Dependency(w, ps, args, i, fuel).value) &&
            (forall i :: 0 <= i < n && i < |args| ==> d[i] == args[i])
    ensures Dependencies(w, ps, args, n, fuel).Failure? ==>
            exists k :: 0 <= k < n && PrefixResolves(w, ps, args, k, fuel) &&
                        FailsWith(Dependency(w, ps, args, k, fuel), Dependencies(w, ps, args, n, fuel).error)
    decreases n
  {
    if n > 0 {
      var m := n - 1;
      DependenciesEntries(w, ps, args, m, fuel);
      var prefix := Dependencies(w, ps, args, m, fuel);
      if prefix.Failure? {
        var k :| 0 <= k < m && PrefixResolves(w, ps, args, k, fuel) &&
                 FailsWith(Dependency(w, ps, args, k, fuel), prefix.error);
        assert Dependencies(w, ps, args, n, fuel) == prefix;
      } else if Dependency(w, ps, args, m, fuel).Failure? {
        assert FailsWith(Dependencies(w, ps, args, n, fuel), Dependency(w, ps, args, m, fuel).error);
      }
    }
  }

  /** With the parameter objects themselves as the explicit arguments, every position is filled
      by its own parameter object: no class is resolved and no default is read. */
  lemma {:induction false} ParametersFillEveryPosition(w: World, ps: seq<Param>, n: nat, fuel: nat)
    requires n <= |ps|
    ensures Dependencies(w, ps, ParamValues(ps), n, fuel) == Success(ParamValues(ps)[..n])
    decreases n
  {
    if n > 0 {
      ParametersFillEveryPosition(w, ps, n - 1, fuel);
      assert ParamValues(ps)[..n] == ParamValues(ps)[..n - 1] + [ParamValues(ps)[n - 1]];
    }
  }

  /** What `Resolve` returns, for any arguments and any positive fuel: the reflection failure,
      a not-instantiable error naming the class, a bare object when there is no constructor, or
      the constructor run on its own parameter objects. */
  lemma ResolveOutcome(w: World, target: Value, args: seq<Value>, fuel: nat)
    requires fuel > 0
    ensures var r := Resolve(w, target, args, fuel);
            match Reflected(w, target)
            case Failure(e) => r == Failure(e) && e == UnknownClass(target)
            case Success((name, info)) =>
              if !info.instantiable then r == Failure(NotInstantiable(name))
              else if info.ctor.None? then r == Success(Bare(name))
              else r == Success(Instance(name, ParamValues(info.ctor.value)))
  {
    match Reflected(w, target)
    case Failure(e) =>
    case Success((name, info)) =>
      if info.instantiable && info.ctor.Some? {
        var ps := info.ctor.value;
        ParametersFillEveryPosition(w, ps, |ps|, fuel - 1);
        assert ParamValues(ps)[..|ps|] == ParamValues(ps);
      }
  }

  /** Two classes whose constructors take each other: `Resolve` still finishes with one unit of
      fuel, because the constructor receives its own parameter object and nothing recurses.
      (PHP's argument type check would reject that object; the model does not run it.) */
  lemma CyclicGraphFinishes(call: (nat, seq<Value>) -> Value)
    ensures var pa := [Param("b", 0, Some("B"), None)];
            var w := World(map["A" := ClassInfo(true, Some(pa)),
                               "B" := ClassInfo(true, Some([Param("a", 0, Some("A"), None)]))], call);
            Resolve(w, Name("A"), [], 1) == Success(Instance("A", [ParamRef(pa[0])]))
  {
    var pa := [Param("b", 0, Some("B"), None)];
    var w := World(map["A" := ClassInfo(true, Some(pa)),
                       "B" := ClassInfo(true, Some([Param("a", 0, Some("A"), None)]))], call);
    ResolveOutcome(w, Name("A"), [], 1);
    assert ParamValues(pa) == [ParamRef(pa[0])];
  }

  /** Build the dependency list for `parameters` by appending one entry per parameter. */
  method GetDependencies(w: World, parameters: seq<Param>, args: seq<Value>, fuel: nat) returns (r: Result<seq<Value>>)
    ensures r == Dependencies(w, parameters, args, |parameters|, fuel)
  {
    var dependencies: seq<Value> := [];
    var key := 0;
    while key < |parameters|
      invariant 0 <= key <= |parameters|
      invariant Dependencies(w, parameters, args, key, fuel) == Success(dependencies)
    {
      var next: Result<Value>;
      if key < |args| {
        next := Success(args[key]);
      } else if parameters[key].classType.Some? {
        var c := parameters[key].classType.value;
        if c in w.classes {
          next := Resolve(w, Name(c), [], fuel);
        } else {
          next := Failure(UnknownClass(Name(c)));
        }
      } else {
        next := ResolveNonClass(parameters[key]);
      }
      assert next == Dependency(w, parameters, args, key, fuel);
      match next {
        case Failure(e) =>
          DependenciesFailurePersists(w, parameters, args, key + 1, |parameters|, fuel);
          return Failure(e);
        case Success(v) =>
          dependencies := dependencies + [v];
      }
      key := key + 1;
    }
    r := Success(dependencies);
  }
}

=== FILE: reflect.dfy ===
/** The `Reflect` resolver: three registries (aliases, bindings, singleton instances) and a
    recursive `Resolve` that rewrites a target through them and then builds it from its
    reflected constructor or function signature. */
module Reflect {
  import opened Values

  /** The three registries of a `Reflect` object. Every lookup and every resolution reads them and
      none of them writes: resolving never changes the registries. */
  datatype Registry = Registry(aliases: map<Value, Value>, bindings: map<Value, Value>, instances: map<Value, Value>)
  {
    predicate BindingExists(key: Value) {
      key in bindings
    }

    predicate AliasExists(key: Value) {
      key in aliases
    }

    predicate SingletonExists(key: Value) {
      key in instances
    }

    /** The alias target of `key`, after exactly one hop; the input itself when it is
        callable or has no alias. */
    function GetAlias(key: Value): (r: Value)
      ensures r == key || (AliasExists(key) && r == aliases[key])
      ensures !IsCallable(key) && AliasExists(key) ==> r == aliases[key]
      ensures IsCallable(key) || !AliasExists(key) ==> r == key
    {
      if IsCallable(key) || key !in aliases then key else aliases[key]
    }

    /** The stored instance of `key`, or the input itself when none is stored. */
    function GetSingleton(key: Value): (r: Value)
      ensures SingletonExists(key) ==> r == instances[key]
      ensures !SingletonExists(key) ==> r == key
    {
      if key !in instances then key else instances[key]
    }

    /** The binding of `key`: the input itself when it is callable or unbound, a stored
        closure resolved with no explicit arguments, any other stored value verbatim. */
    function GetBinding(w: World, key: Value, fuel: nat): Result<Value>
      decreases fuel, 1, 0
    {
      if IsCallable(key) || key !in bindings then Success(key)
      else
        var binding := bindings[key];
        if IsCallable(binding) then Resolve(w, binding, [], fuel) else Success(binding)
    }

    /** Resolve `target` with the explicit positional arguments `args`. Each call spends one unit
        of `fuel`; running out means too little fuel was given, or the source's recursion is
        unbounded, as on a cyclic dependency graph. */
    function Resolve(w: World, target: Value, args: seq<Value>, fuel: nat): Result<Value>
      decreases fuel, 0, 0
    {
      if fuel == 0 then Failure(Exhausted)
      else if !IsCallable(target) && SingletonExists(target) then Success(GetSingleton(target))
      else
        match GetBinding(w, GetAlias(target), fuel - 1)
        case Failure(e) => Failure(e)
        case Success(t) =>
          if IsCallable(t) then ResolveFunction(w, t, args, fuel - 1)
          else
            match Reflected(w, t)
            case Failure(e) => Failure(e)
            case Success((name, info)) => ResolveClass(w, name, info, args, fuel - 1)
    }

    /** Call closure `f` with the dependency list built from its own parameters; the world's call
        table says what the call returns. */
    function ResolveFunction(w: World, f: Value, args: seq<Value>, fuel: nat): Result<Value>
      requires IsCallable(f)
      decreases fuel, 3, 0
    {
      match Dependencies(w, f.params, args, |f.params|, fuel)
      case Failure(e) => Failure(e)
      case Success(d) => Success(w.call(f.id, d))
    }

    /** Instantiate class `name`: an error when it is not instantiable, a bare object when it has
        no constructor, otherwise the constructor run on the dependency list. */
    function ResolveClass(w: World, name: string, info: ClassInfo, args: seq<Value>, fuel: nat): Result<Value>
      decreases fuel, 3, 0
    {
      if !info.instantiable then Failure(NotInstantiable(name))
      else
        match info.ctor
        case None => Success(Bare(name))
        case Some(ps) =>
          match Dependencies(w, ps, args, |ps|, fuel)
          case Failure(e) => Failure(e)
          case Success(d) => Success(Instance(name, d))
    }

    /** The value for parameter `key`: the explicit argument at that position, else the
        resolution of its class type with no arguments, else its default. Reflecting on a type
        hint that names no known class fails before anything is resolved. */
    function Dependency(w: World, ps: seq<Param>, args: seq<Value>, key: nat, fuel: nat): Result<Value>
      requires key < |ps|
      decreases fuel, 1, 0
    {
      if key < |args| then Success(args[key])
      else
        match ps[key].classType
        case Some(c) => if c in w.classes then Resolve(w, Name(c), [], fuel) else Failure(UnknownClass(Name(c)))
        case None => ResolveNonClass(ps[key])
    }

    /** The dependency list of the first `n` parameters, failing at the first parameter that fails. */
    function Dependencies(w: World, ps: seq<Param>, args: seq<Value>, n: nat, fuel: nat): (r: Result<seq<Value>>)
      requires n <= |ps|
      ensures r.Success? ==> |r.value| == n
      decreases fuel, 2, n
    {
      if n == 0 then Success([])
      else
        match Dependencies(w, ps, args, n - 1, fuel)
        case Failure(e) => Failure(e)
        case Success(d) =>
          match Dependency(w, ps, args, n - 1, fuel)
          case Failure(e) => Failure(e)
          case Success(v) => Success(d + [v])
    }

    /** Once a prefix of the parameters fails, every longer prefix fails with the same error. */
    lemma {:induction false} DependenciesFailurePersists(w: World, ps: seq<Param>, args: seq<Value>, n: nat, m: nat, fuel: nat)
      requires n <= m <= |ps|
      requires Dependencies(w, ps, args, n, fuel).Failure?
      ensures Dependencies(w, ps, args, m, fuel) == Dependencies(w, ps, args, n, fuel)
      decreases m
    {
      if n < m {
        DependenciesFailurePersists(w, ps, args, n, m - 1, fuel);
      }
    }

    /** The positional rule for one parameter: the explicit argument at its position wins;
        otherwise a class-typed parameter is resolved with no arguments, or fails when its class
        is unknown; otherwise its default is used, and without one the call fails. */
    lemma DependencyCases(w: World, ps: seq<Param>, args: seq<Value>, key: nat, fuel: nat)
      requires key < |ps|
      ensures key < |args| ==> Dependency(w, ps, args, key, fuel) == Success(args[key])
      ensures key >= |args| && ps[key].classType.Some? && ps[key].classType.value in w.classes ==>
              Dependency(w, ps, args, key, fuel) == Resolve(w, Name(ps[key].classType.value), [], fuel)
      ensures key >= |args| && ps[key].classType.Some? && ps[key].classType.value !in w.classes ==>
              Dependency(w, ps, args, key, fuel) == Failure(UnknownClass(Name(ps[key].classType.value)))
      ensures key >= |args| && ps[key].classType.None? && ps[key].default.Some? ==>
              Dependency(w, ps, args, key, fuel) == Success(ps[key].default.value)
      ensures key >= |args| && ps[key].classType.None? && ps[key].default.None? ==>
              Dependency(w, ps, args, key, fuel) == Failure(UnknownParameter)
    {
    }

    /** Every one of the first `k` parameters gets a value. */
    predicate PrefixResolves(w: World, ps: seq<Param>, args: seq<Value>, k: nat, fuel: nat)
      requires k <= |ps|
    {
      forall i :: 0 <= i < k ==> Dependency(w, ps, args, i, fuel).Success?
    }

    /** The dependency list has one entry per parameter, entry `i` being parameter `i`'s own value
        (the explicit argument verbatim when there is one); it exists exactly when every entry
        succeeds, and otherwise the whole list fails with the error of the first failing entry. */
    lemma {:induction false} DependenciesEntries(w: World, ps: seq<Param>, args: seq<Value>, n: nat, fuel: nat)
      requires n <= |ps|
      ensures Dependencies(w, ps, args, n, fuel).Success? <==> PrefixResolves(w, ps, args, n, fuel)
      ensures Dependencies(w, ps, args, n, fuel).Success? ==>
              var d := Dependencies(w, ps, args, n, fuel).value;
              |d| == n &&
              (forall i :: 0 <= i < n ==> d[i] == Dependency(w, ps, args, i, fuel).value) &&
              (forall i :: 0 <= i < n && i < |args| ==> d[i] == args[i])
      ensures Dependencies(w, ps, args, n, fuel).Failure? ==>
              exists k :: 0 <= k < n && PrefixResolves(w, ps, args, k, fuel) &&
                          FailsWith(Dependency(w, ps, args, k, fuel), Dependencies(w, ps, args, n, fuel).error)
      decreases n
    {
      if n > 0 {
        var m := n - 1;
        DependenciesEntries(w, ps, args, m, fuel);
        var prefix := Dependencies(w, ps, args, m, fuel);
        if prefix.Failure? {
          var k :| 0 <= k < m && PrefixResolves(w, ps, args, k, fuel) &&
                   FailsWith(Dependency(w, ps, args, k, fuel), prefix.error);
          assert Dependencies(w, ps, args, n, fuel) == prefix;
        } else if Dependency(w, ps, args, m, fuel).Failure? {
          assert FailsWith(Dependencies(w, ps, args, n, fuel), Dependency(w, ps, args, m, fuel).error);
        }
      }
    }

    /** A value stored as a singleton is what every later resolution of its non-callable key
        returns, whatever the arguments, and nothing else is consulted. */
    lemma StoredSingletonIsReturned(w: World, key: Value, v: Value, args: seq<Value>, fuel: nat)
      requires !IsCallable(key) && fuel > 0
      ensures this.(instances := instances[key := v]).Resolve(w, key, args, fuel) == Success(v)
    {
    }

    /** The three outcomes of a binding lookup. */
    lemma GetBindingCases(w: World, key: Value, fuel: nat)
      ensures IsCallable(key) || !BindingExists(key) ==> GetBinding(w, key, fuel) == Success(key)
      ensures !IsCallable(key) && BindingExists(key) && !IsCallable(bindings[key]) ==>
              GetBinding(w, key, fuel) == Success(bindings[key])
      ensures !IsCallable(key) && BindingExists(key) && IsCallable(bindings[key]) ==>
              GetBinding(w, key, fuel) == Resolve(w, bindings[key], [], fuel)
    {
    }

    /** Resolving an aliased key follows exactly one hop and then builds the destination: with
        a non-callable, unbound destination the result is the destination's class built with the
        same arguments. The destination's own singleton and alias are never looked at. */
    lemma AliasSkipsDestinationSingleton(w: World, key: Value, args: seq<Value>, fuel: nat)
      requires !IsCallable(key) && !SingletonExists(key) && AliasExists(key) && fuel > 0
      requires !IsCallable(aliases[key]) && !BindingExists(aliases[key])
      ensures Resolve(w, key, args, fuel) ==
              match Reflected(w, aliases[key])
              case Failure(e) => Failure(e)
              case Success((name, info)) => ResolveClass(w, name, info, args, fuel - 1)
    {
    }

    /** A closure bound to a key is called with no explicit arguments, and what it returns takes
        the key's place: a callable result is called with the arguments, anything else is
        reflected and built with them. */
    lemma ClosureBindingResolvesItsResult(w: World, key: Value, args: seq<Value>, fuel: nat)
      requires !IsCallable(key) && !SingletonExists(key) && !AliasExists(key) && BindingExists(key)
      requires IsCallable(bindings[key]) && fuel >= 2
      ensures Resolve(w, key, args, fuel) ==
              match ResolveFunction(w, bindings[key], [], fuel - 2)
              case Failure(e) => Failure(e)
              case Success(v) =>
                if IsCallable(v) then ResolveFunction(w, v, args, fuel - 1)
                else
                  match Reflected(w, v)
                  case Failure(e) => Failure(e)
                  case Success((name, info)) => ResolveClass(w, name, info, args, fuel - 1)
    {
      var f := bindings[key];
      assert Resolve(w, f, [], fuel - 1) == ResolveFunction(w, f, [], fuel - 2);
      assert GetBinding(w, key, fuel - 1) == ResolveFunction(w, f, [], fuel - 2);
    }

    /** The singleton check looks at the requested key only: a key bound to a non-callable value
        resolves as that value reflected and built, and the value's own singleton, alias and
        binding are never looked at. */
    lemma BoundKeySkipsConcreteSingleton(w: World, key: Value, args: seq<Value>, fuel: nat)
      requires !IsCallable(key) && !SingletonExists(key) && !AliasExists(key) && BindingExists(key)
      requires !IsCallable(bindings[key]) && fuel > 0
      ensures Resolve(w, key, args, fuel) ==
              match Reflected(w, bindings[key])
              case Failure(e) => Failure(e)
              case Success((name, info)) => ResolveClass(w, name, info, args, fuel - 1)
    {
    }

    /** An alias is followed before the binding lookup: an aliased key follows one hop and then
        the destination's binding, and a non-callable bound value is reflected and built with
        the same arguments. */
    lemma AliasThenBinding(w: World, key: Value, args: seq<Value>, fuel: nat)
      requires !IsCallable(key) && !SingletonExists(key) && AliasExists(key) && fuel > 0
      requires !IsCallable(aliases[key]) && BindingExists(aliases[key])
      requires !IsCallable(bindings[aliases[key]])
      ensures Resolve(w, key, args, fuel) ==
              match Reflected(w, bindings[aliases[key]])
              case Failure(e) => Failure(e)
              case Success((name, info)) => ResolveClass(w, name, info, args, fuel - 1)
    {
    }

    /** A key bound to a plain class name resolves exactly like that name, provided the name
        itself has no singleton, alias or binding of its own. */
    lemma BoundKeyResolvesAsConcrete(w: World, key: Value, args: seq<Value>, fuel: nat)
      requires !IsCallable(key) && !SingletonExists(key) && !AliasExists(key) && BindingExists(key)
      requires var c := bindings[key]; !IsCallable(c) && !SingletonExists(c) && !AliasExists(c) && !BindingExists(c)
      ensures Resolve(w, key, args, fuel) == Resolve(w, bindings[key], args, fuel)
    {
    }

    /** Instantiating a class: not instantiable is an error naming it; no constructor gives a bare
        object whatever the arguments; otherwise the constructor receives one value per
        parameter, in order, and any failing parameter makes the whole instantiation fail with
        the first failure. */
    lemma {:induction false} ResolveClassCases(w: World, name: string, info: ClassInfo, args: seq<Value>, fuel: nat)
      ensures !info.instantiable ==> ResolveClass(w, name, info, args, fuel) == Failure(NotInstantiable(name))
      ensures info.instantiable && info.ctor.None? ==> ResolveClass(w, name, info, args, fuel) == Success(Bare(name))
      ensures info.instantiable && info.ctor.Some? ==>
              var ps := info.ctor.value;
              var r := ResolveClass(w, name, info, args, fuel);
              (r.Success? <==> PrefixResolves(w, ps, args, |ps|, fuel)) &&
              (r.Success? ==> r.value.Instance? && r.value.cls == name && |r.value.args| == |ps| &&
                              forall i :: 0 <= i < |ps| ==> r.value.args[i] == Dependency(w, ps, args, i, fuel).value) &&
              (r.Failure? ==> exists k :: 0 <= k < |ps| && PrefixResolves(w, ps, args, k, fuel) &&
                                          FailsWith(Dependency(w, ps, args, k, fuel), r.error))
    {
      if info.instantiable && info.ctor.Some? {
        DependenciesEntries(w, info.ctor.value, args, |info.ctor.value|, fuel);
      }
    }

    /** Calling a closure: it receives one value per declared parameter, in order, and its
        result is what the call returns; otherwise the first failure. */
    lemma {:induction false} ResolveFunctionCases(w: World, f: Value, args: seq<Value>, fuel: nat)
      requires IsCallable(f)
      ensures var r := ResolveFunction(w, f, args, fuel);
              (r.Success? <==> PrefixResolves(w, f.params, args, |f.params|, fuel)) &&
              (r.Success? ==> exists d: seq<Value> ::
                                r.value == w.call(f.id, d) && |d| == |f.params| &&
                                forall i :: 0 <= i < |f.params| ==> d[i] == Dependency(w, f.params, args, i, fuel).value) &&
              (r.Failure? ==> exists k :: 0 <= k < |f.params| && PrefixResolves(w, f.params, args, k, fuel) &&
                                          FailsWith(Dependency(w, f.params, args, k, fuel), r.error))
    {
      DependenciesEntries(w, f.params, args, |f.params|, fuel);
    }

    /** Fuel is only a bound: a resolution that did not run out of fuel gives the same result
        with any larger amount. */
    lemma {:induction false} ResolveFuel(w: World, target: Value, args: seq<Value>, f: nat, g: nat)
      requires f <= g && Settled(Resolve(w, target, args, f))
      ensures Resolve(w, target, args, g) == Resolve(w, target, args, f)
      decreases f, 0, 0
    {
      if IsCallable(target) || !SingletonExists(target) {
        var a := GetAlias(target);
        GetBindingFuel(w, a, f - 1, g - 1);
        match GetBinding(w, a, f - 1)
        case Failure(_) =>
        case Success(t) =>
          if IsCallable(t) {
            ResolveFunctionFuel(w, t, args, f - 1, g - 1);
          } else {
            match Reflected(w, t)
            case Failure(_) =>
            case Success((name, info)) => ResolveClassFuel(w, name, info, args, f - 1, g - 1);
          }
      }
    }

    lemma {:induction false} GetBindingFuel(w: World, key: Value, f: nat, g: nat)
      requires f <= g && Settled(GetBinding(w, key, f))
      ensures GetBinding(w, key, g) == GetBinding(w, key, f)
      decreases f, 1, 0
    {
      if !IsCallable(key) && key in bindings && IsCallable(bindings[key]) {
        ResolveFuel(w, bindings[key], [], f, g);
      }
    }

    lemma {:induction false} ResolveFunctionFuel(w: World, fn: Value, args: seq<Value>, f: nat, g: nat)
      requires IsCallable(fn)
      requires f <= g && Settled(ResolveFunction(w, fn, args, f))
      ensures ResolveFunction(w, fn, args, g) == ResolveFunction(w, fn, args, f)
      decreases f, 3, 0
    {
      DependenciesFuel(w, fn.params, args, |fn.params|, f, g);
    }

    lemma {:induction false} ResolveClassFuel(w: World, name: string, info: ClassInfo, args: seq<Value>, f: nat, g: nat)
      requires f <= g && Settled(ResolveClass(w, name, info, args, f))
      ensures ResolveClass(w, name, info, args, g) == ResolveClass(w, name, info, args, f)
      decreases f, 3, 0
    {
      if info.instantiable && info.ctor.Some? {
        DependenciesFuel(w, info.ctor.value, args, |info.ctor.value|, f, g);
      }
    }

    lemma {:induction false} DependenciesFuel(w: World, ps: seq<Param>, args: seq<Value>, n: nat, f: nat, g: nat)
      requires n <= |ps|
      requires f <= g && Settled(Dependencies(w, ps, args, n, f))
      ensures Dependencies(w, ps, args, n, g) == Dependencies(w, ps, args, n, f)
      decreases f, 2, n
    {
      if n > 0 {
        DependenciesFuel(w, ps, args, n - 1, f, g);
        if Dependencies(w, ps, args, n - 1, f).Success? {
          DependencyFuel(w, ps, args, n - 1, f, g);
        }
      }
    }

    lemma {:induction false} DependencyFuel(w: World, ps: seq<Param>, args: seq<Value>, key: nat, f: nat, g: nat)
      requires key < |ps|
      requires f <= g && Settled(Dependency(w, ps, args, key, f))
      ensures Dependency(w, ps, args, key, g) == Dependency(w, ps, args, key, f)
      decreases f, 1, 0
    {
      if key >= |args| && ps[key].classType.Some? && ps[key].classType.value in w.classes {
        ResolveFuel(w, Name(ps[key].classType.value), [], f, g);
      }
    }
  }

  /** An untyped parameter with no explicit argument: its default, or a failure. */
  function ResolveNonClass(p: Param): (r: Result<Value>)
    ensures r.Success? <==> p.default.Some?
    ensures r.Success? ==> r.value == p.default.value
    ensures r.Failure? ==> r.error == UnknownParameter
  {
    match p.default
    case Some(v) => Success(v)
    case None => Failure(UnknownParameter)
  }

  /** The singleton check looks at the requested key only, before the alias is followed: a
      singleton stored under an alias's destination is not what resolving the alias returns. */
  lemma AliasDestinationSingletonIsBypassed(call: (nat, seq<Value>) -> Value)
    ensures var w := World(map["Impl" := ClassInfo(true, None)], call);
            var reg := Registry(map[Name("Api") := Name("Impl")], map[], map[Name("Impl") := Scalar(1)]);
            reg.Resolve(w, Name("Impl"), [], 1) == Success(Scalar(1)) &&
            reg.Resolve(w, Name("Api"), [], 2) == Success(Bare("Impl"))
  {
  }

  /** Aliases are followed one hop only: a chain stops at its second element. */
  lemma ChainedAliasTakesOneHop(call: (nat, seq<Value>) -> Value)
    ensures var w := World(map["Mid" := ClassInfo(true, None), "Impl" := ClassInfo(true, None)], call);
            var reg := Registry(map[Name("Api") := Name("Mid"), Name("Mid") := Name("Impl")], map[], map[]);
            reg.Resolve(w, Name("Api"), [], 2) == Success(Bare("Mid"))
  {
  }

  /** A class whose constructor takes a class-typed parameter gets a freshly built instance of
      that class, with no explicit arguments anywhere. */
  lemma NestedConstruction(call: (nat, seq<Value>) -> Value)
    ensures var w := World(map["X" := ClassInfo(true, Some([Param("y", 0, Some("Y"), None)])),
                               "Y" := ClassInfo(true, Some([]))], call);
            Registry(map[], map[], map[]).Resolve(w, Name("X"), [], 3) == Success(Instance("X", [Instance("Y", [])]))
  {
    var ps := [Param("y", 0, Some("Y"), None)];
    var w := World(map["X" := ClassInfo(true, Some(ps)), "Y" := ClassInfo(true, Some([]))], call);
    var reg := Registry(map[], map[], map[]);
    assert reg.Resolve(w, Name("Y"), [], 2) == Success(Instance("Y", []));
    assert reg.Dependency(w, ps, [], 0, 2) == Success(Instance("Y", []));
    assert reg.Dependencies(w, ps, [], 0, 2) == Success([]);
    assert reg.Dependencies(w, ps, [], 1, 2) == Success([] + [Instance("Y", [])]);
    assert [] + [Instance("Y", [])] == [Instance("Y", [])];
    assert reg.ResolveClass(w, "X", w.classes["X"], [], 2) == Success(Instance("X", [Instance("Y", [])]));
    assert Reflected(w, Name("X")) == Success(("X", w.classes["X"]));
  }

  /** A factory closure bound to a key is called, and the class name it returns is built. */
  lemma FactoryClosureBuildsReturnedClass(call: (nat, seq<Value>) -> Value)
    requires call(7, []) == Name("Impl")
    ensures var w := World(map["Impl" := ClassInfo(true, None)], call);
            var reg := Registry(map[], map[Name("Api") := Closure(7, [])], map[]);
            reg.Resolve(w, Name("Api"), [], 3) == Success(Bare("Impl"))
  {
  }

  /** Two classes whose constructors take each other: no amount of fuel is enough, so the
      recursion through class-typed parameters never finishes. */
  lemma {:induction false} CyclicGraphExhausts(call: (nat, seq<Value>) -> Value, fuel: nat)
    ensures var w := World(map["A" := ClassInfo(true, Some([Param("b", 0, Some("B"), None)])),
                               "B" := ClassInfo(true, Some([Param("a", 0, Some("A"), None)]))], call);
            var reg := Registry(map[], map[], map[]);
            reg.Resolve(w, Name("A"), [], fuel) == Failure(Exhausted) &&
            reg.Resolve(w, Name("B"), [], fuel) == Failure(Exhausted)
    decreases fuel
  {
    if fuel > 0 {
      var pa := [Param("b", 0, Some("B"), None)];
      var pb := [Param("a", 0, Some("A"), None)];
      var w := World(map["A" := ClassInfo(true, Some(pa)), "B" := ClassInfo(true, Some(pb))], call);
      var reg := Registry(map[], map[], map[]);
      CyclicGraphExhausts(call, fuel - 1);
      assert reg.Dependencies(w, pa, [], 1, fuel - 1) == Failure(Exhausted);
      assert reg.Dependencies(w, pb, [], 1, fuel - 1) == Failure(Exhausted);
      assert Reflected(w, Name("A")) == Success(("A", w.classes["A"]));
      assert Reflected(w, Name("B")) == Success(("B", w.classes["B"]));
    }
  }

  /** A `Reflect` object: the registries it updates in place. */
  class Reflect {
    var aliases: map<Value, Value>
    var instances: map<Value, Value>
    var bindings: map<Value, Value>

    constructor ()
      ensures aliases == map[] && instances == map[] && bindings == map[]
    {
      aliases := map[];
      instances := map[];
      bindings := map[];
    }

    /** The registries as they stand now. */
    function State(): Registry
      reads this
    {
      Registry(aliases, bindings, instances)
    }

    method Bind(key: Value, concrete: Value)
      modifies this
      ensures bindings == old(bindings)[key := concrete]
      ensures aliases == old(aliases) && instances == old(instances)
    {
      bindings := bindings[key := concrete];
    }

    method Alias(key: Value, concrete: Value)
      modifies this
      ensures aliases == old(aliases)[key := concrete]
      ensures bindings == old(bindings) && instances == old(instances)
    {
      aliases := aliases[key := concrete];
    }

    /** Resolve `concrete` with no explicit arguments and store the result under `key`;
        `thrown` is the failure that PHP would raise, in which case nothing is stored. */
    method Singleton(w: World, key: Value, concrete: Value, fuel: nat) returns (thrown: Option<Error>)
      modifies this
      ensures aliases == old(aliases) && bindings == old(bindings)
      ensures match old(State().Resolve(w, concrete, [], fuel))
              case Success(v) => thrown == None && instances == old(instances)[key := v]
              case Failure(e) => thrown == Some(e) && instances == old(instances)
    {
      var r := State().Resolve(w, concrete, [], fuel);
      match r {
        case Success(v) =>
          instances := instances[key := v];
          thrown := None;
        case Failure(e) =>
          thrown := Some(e);
      }
    }

    /** Build the dependency list for `parameters` by appending one entry per parameter. */
    method GetDependencies(w: World, parameters: seq<Param>, args: seq<Value>, fuel: nat) returns (r: Result<seq<Value>>)
      ensures r == State().Dependencies(w, parameters, args, |parameters|, fuel)
    {
      var dependencies: seq<Value> := [];
      var key := 0;
      while key < |parameters|
        invariant 0 <= key <= |parameters|
        invariant State().Dependencies(w, parameters, args, key, fuel) == Success(dependencies)
      {
        var next: Result<Value>;
        if key < |args| {
          next := Success(args[key]);
        } else if parameters[key].classType.Some? {
          var c := parameters[key].classType.value;
          if c in w.classes {
            next := State().Resolve(w, Name(c), [], fuel);
          } else {
            next := Failure(UnknownClass(Name(c)));
          }
        } else {
          next := ResolveNonClass(parameters[key]);
        }
        assert next == State().Dependency(w, parameters, args, key, fuel);
        match next {
          case Failure(e) =>
            State().DependenciesFailurePersists(w, parameters, args, key + 1, |parameters|, fuel);
            return Failure(e);
          case Success(v) =>
            dependencies := dependencies + [v];
        }
        key := key + 1;
      }
      r := Success(dependencies);
    }
  }
}

=== FILE: values.dfy ===
/** The values a resolver handles, the reflected signatures it reads, and its failures.
    PHP reflection is replaced by an explicit `World`: a table from class names to what
    `ReflectionClass` would report about them. */
module Values {

  datatype Option<+T> = None | Some(value: T)

  /** A reflected constructor or function parameter: its name, its declared position, the class
      named by its type hint (absent for untyped or scalar-typed parameters) and its default value. */
  datatype Param = Param(name: string, position: nat, classType: Option<string>, default: Option<Value>)

  /** Every runtime value the resolvers store, pass or return. */
  datatype Value =
    | Name(name: string)                      // a string: a class name or a registry key
    | Closure(id: nat, params: seq<Param>)    // a callable, with its reflected parameter list
    | Instance(cls: string, args: seq<Value>) // an object built by running its constructor on `args`
    | Bare(cls: string)                       // an object built without running a constructor
    | Scalar(n: int)                          // a plain scalar (defaults, explicit arguments)
    | ParamRef(param: Param)                  // a reflected parameter object handed over as a value
    | ContainerRef                            // the container object itself
    | Null                                    // PHP's `null`

  /** What reflection reports about a declared class. */
  datatype ClassInfo = ClassInfo(instantiable: bool, ctor: Option<seq<Param>>)

  /** The classes reflection knows about, and `call(id, args)`: whatever closure `id` returns
      when it is called with `args`. The closure bodies themselves are not modelled. */
  datatype World = World(classes: map<string, ClassInfo>, call: (nat, seq<Value>) -> Value)

  datatype Error =
    | NotInstantiable(cls: string)                      // the class is abstract, an interface or a trait
    | UnknownParameter                                  // Reflect: no argument, no class type, no default
    | UnresolvableParameter(name: string, position: nat) // DI: the same, naming the parameter
    | UnknownClass(target: Value)                       // reflection found no class for the target
    | Exhausted                                         // fuel ran out: too little fuel, or the source's unbounded recursion

  datatype Result<+T> = Success(value: T) | Failure(error: Error)

  /** A result that did not come from running out of fuel. */
  predicate Settled<T>(r: Result<T>) {
    !(r.Failure? && r.error.Exhausted?)
  }

  /** `r` is a failure carrying `e`. */
  predicate FailsWith<T>(r: Result<T>, e: Error) {
    r.Failure? && r.error == e
  }

  /** `is_callable`: only closures are callable in this model. */
  predicate IsCallable(v: Value) {
    v.Closure?
  }

  /** The class `new ReflectionClass(v)` reflects on: a class name, or the class of an object. */
  function ClassName(v: Value): Option<string> {
    match v
    case Name(s) => Some(s)
    case Instance(c, _) => Some(c)
    case Bare(c) => Some(c)
    case _ => None
  }

  /** `new ReflectionClass(v)`: the class name and its reflected description, or the exception
      PHP raises when no such class exists. */
  function Reflected(w: World, v: Value): Result<(string, ClassInfo)> {
    match ClassName(v)
    case Some(c) => if c in w.classes then Success((c, w.classes[c])) else Failure(UnknownClass(v))
    case None => Failure(UnknownClass(v))
  }

  /** The reflected parameter objects themselves, as a list of values. */
  function ParamValues(ps: seq<Param>): (vs: seq<Value>)
    ensures |vs| == |ps|
    ensures forall i :: 0 <= i < |ps| ==> vs[i] == ParamRef(ps[i])
  {
    seq(|ps|, i requires 0 <= i < |ps| => ParamRef(ps[i]))
  }
}
